=== FILE: README.md ===
# Compound-interest projection, in Dafny

A model of the calculation core of a browser compound-interest calculator,
the engine inside `app.js`, with proofs about it. The core has four parts.

- **Projection** (`projectGrowth`). The form inputs are clamped. The number of
  sub-periods per year is the least common multiple of the compounding
  frequency and the contribution frequency. The engine then walks the
  sub-periods one by one. In each sub-period it credits the scheduled deposit,
  either before or after interest. It applies interest at the end of every
  interest interval. Once per calendar year it grows the per-deposit amount by
  the growth percentage. It records a timeline entry after every sub-period.
- **gcd / lcm**. Euclid's loop, and the least common multiple built on it.
- **Display timeline** (`displayTimeline`). The timeline is thinned out to the
  viewing frequency the user picked. The first entry and the last entry are
  always kept. The kept entries are relabelled 0, 1, 2, …
- **Form check** (`validate`). There is one error per invalid field, in a fixed
  order.

Files:

- `numbers.dfy` (module `Numbers`): rounding, divisibility, `GcdOf` and the
  `Gcd` loop, and `Lcm`.
- `projection.dfy` (module `Projection`): the data model and the normalisation
  `Normalize`. It also holds the specification functions `Deposit`,
  `SettleBalance`, `BalanceAt`, `ContributionsAt`, `EntryAt` and `Timeline`,
  and the engine's methods. `ProjectGrowth` and `RunSchedule` are proved to
  produce exactly `Timeline(Normalize(input), periods)`. One pass of their loop
  is split into `EnterPeriod`, which grows the per-event amount in a new year,
  and `SettlePeriod`, which turns the balance at the start of a sub-period
  into `SettleBalance` of it and adds that sub-period's `Deposit` to the
  contributions.
- `projection_properties.dfy` (module `ProjectionProperties`): what every
  projection promises, including how interest compounds.
- `display.dfy` (module `Display`): the downsampling of the timeline.
- `validation.dfy` (module `Validation`): the form check.

Money amounts, rates and years are `real`. Frequencies are integers.

## Model

| member | source | states |
|---|---|---|
| Numbers.RoundHalfUp | app.js:460 | `Math.round`: the result is the integer within one half of the argument, with halves rounded upward |
| Numbers.AtLeastOne | app.js:553-554 | the clamp `max(1, |a|)`: at least one, at least `a` and at least `-a`, and equal to one of `1`, `a`, `-a` |
| Numbers.Gcd | app.js:558-567 | the loop returns Euclid's gcd `GcdOf(a, b)`; when one argument is positive the result is positive and divides both; every common divisor divides it |
| Numbers.GcdDivides | app.js:558-567 | the gcd of two numbers that are not both zero is positive and divides both |
| Numbers.CommonDivisorDividesGcd | app.js:558-567 | every common divisor of the arguments divides their gcd |
| Numbers.Lcm | app.js:552-556 | both arguments are clamped to `max(1, |a|)`; the result is at least one and divisible by both clamped arguments; result times gcd equals their product, so the division is exact |
| Numbers.LcmIsLeast | app.js:552-556 | `Lcm` divides every common multiple of the clamped arguments, so it is the least one |
| Projection.Interval | app.js:461-462 | for a frequency that divides `stepPerYear`, the interval times the frequency is exactly `stepPerYear`, so the interval is a whole positive number |
| Projection.Periods | app.js:460 | the number of sub-periods is within one half of `years * stepPerYear` (rounded half up) and never negative |
| Projection.Normalize | app.js:450-464 | keeps the initial amount, the contribution and the start/end choice; each frequency is the input when that is at least one and one otherwise; `stepPerYear` is the lcm of the two; both intervals divide it exactly (`Aligned`); the number of sub-periods is `Periods` of the years clamped at zero; growth times 100 is the growth percentage clamped at zero; the per-period rate is `rate / 100 / frequency`, so it is zero or non-negative exactly when the rate is |
| Projection.PerEventNextYear | app.js:486-490 | growing the per-event contribution once by `1 + growth` gives the next year's closed-form amount `contribution * (1 + growth)^year` |
| Projection.YearOf | app.js:486 | the year index of sub-period `period` is the whole number of years before it: `year * stepPerYear <= period - 1 < (year + 1) * stepPerYear` |
| Projection.IsContributionPeriod | app.js:492 | a deposit is scheduled only with a positive contribution; the first sub-period always has one then, the next `contributionInterval - 1` never do, and at an interval of one every sub-period does |
| Projection.ContributionPeriodRecurs | app.js:492 | whatever the growth, sub-period `p + contributionInterval` deposits exactly when sub-period `p` does, so with the first interval this fixes every deposit of the schedule |
| Projection.IsInterestPeriod | app.js:500 | interest applies at sub-period zero, at the end of the first interest interval and, at an interval of one, in every sub-period; never strictly inside the first interval |
| Projection.Deposit | app.js:492-493 | a sub-period deposits nothing unless it is the first of a contribution interval and the contribution is positive; then it deposits the per-event amount of its year |
| Projection.SettleBalance | app.js:495-507 | outside an interest period one sub-period only adds its deposit to the balance; on an interest period the order of deposit and interest is `SettleOrder`, and `AtStartStep`/`AtEndStep` give the step in both modes |
| Projection.SettleOrder | app.js:495-507 | on an interest period a deposit paid at the start is compounded with the balance, `(balance + deposit) * (1 + periodRate)`; one paid at the end is added after interest, `balance * (1 + periodRate) + deposit` |
| Projection.BalanceAt | app.js:480-507 | with no principal and no positive contribution the balance stays zero whatever the rate |
| Projection.ContributionsAt | app.js:480-507 | without a positive contribution the contributions stay at the initial amount |
| Projection.EntryAt | app.js:509-520 | the entry after `k` sub-periods has step and label `k`, the balance and contributions after `k` sub-periods, and as interest the larger of zero and balance minus contributions |
| Projection.YearAdvance | app.js:486-490 | between two consecutive sub-periods the year index stays the same or grows by exactly one, so the loop's single growth step per new year suffices |
| Projection.Timeline | app.js:466-478 | the timeline of `n` sub-periods has `n + 1` entries, and entry `k` is the snapshot `EntryAt(s, k)` after `k` sub-periods |
| Projection.TimelineAppend | app.js:509-520 | pushing the entry built from the balance and contributions after sub-period `n` turns the timeline of `n - 1` sub-periods into that of `n` |
| Projection.TimelineShape | app.js:466-478 | the first entry holds the initial amount as both balance and contributions, with zero interest; every entry's step and label equal its index, and its interest is never negative |
| Projection.EnterPeriod | app.js:486-490 | from the year of the previous sub-period and its per-event amount, the pass holds the year of this sub-period and its closed-form per-event amount `PerEvent` |
| Projection.SettlePeriod | app.js:492-507 | from any balance at the start of a sub-period, the pass gives `SettleBalance` of it (a scheduled deposit before or after interest, interest on interest periods) and adds exactly that sub-period's `Deposit` to the contributions |
| Projection.RunSchedule | app.js:466-533 | the loop's timeline is `Timeline(s, periods)`; the final balance, total contributions and total interest `max(0, final - contributions)` are those after the last sub-period |
| Projection.ProjectGrowth | app.js:440-534 | the timeline has `periods + 1` entries; the steps count up from 0 and interest is never negative; entry 0 holds the initial amount with zero interest; the summaries equal the last entry, and `totalInterest = max(0, finalBalance - totalContributions)` |
| ProjectionProperties.DepositSign | app.js:492-493 | a deposit is never negative, and it is positive exactly on contribution periods with a positive contribution |
| ProjectionProperties.ContributionsNonDecreasing | app.js:495-507 | the running total of contributions never decreases along the timeline |
| ProjectionProperties.ZeroRateNoInterest | app.js:500-502 | with a zero per-period rate, the balance equals the contributions after every sub-period |
| ProjectionProperties.BalanceCoversContributions | app.js:509 | with a non-negative principal and rate, `0 <= contributions <= balance` after every sub-period, so the `max(0, …)` in the interest never cuts anything |
| ProjectionProperties.SettleKeepsCover | app.js:495-507 | at a non-negative rate and deposit, one sub-period never lowers a balance that covers the contributions, and the new balance still covers them with the deposit |
| ProjectionProperties.BalanceNonDecreasing | app.js:495-507 | under the same conditions the balance never decreases from one sub-period to the next |
| ProjectionProperties.InterestIsEarned | app.js:509-520 | for a form with a non-negative principal and rate, every timeline entry has `0 <= contributions <= balance` and `interest = balance - contributions`, and balances never fall along the timeline |
| ProjectionProperties.FormShortcuts | app.js:492-507 | for a form at a zero rate, every entry's balance equals its contributions and its interest is zero |
| ProjectionProperties.DepositNextYear | app.js:486-493 | one year later (`stepPerYear` sub-periods on), the same slot of the schedule deposits the amount times `1 + growth` |
| ProjectionProperties.FlatContributionsTotal | app.js:492-507 | without growth, the contributions after `k` sub-periods are the initial amount plus the contribution times the number of contribution intervals begun, `ceil(k / contributionInterval)` |
| ProjectionProperties.NoDepositStep | app.js:500-502 | in a sub-period without a deposit the balance is multiplied by `1 + periodRate` on an interest period and unchanged otherwise |
| ProjectionProperties.CompoundedIsPow | app.js:500-502 | compounding `a` at `x` over `n` interest periods is `a * x^n` |
| ProjectionProperties.CompoundingOnly | app.js:500-502 | without deposits the balance after `k` sub-periods is the principal compounded at `1 + periodRate` once per completed interest interval, `k / interestInterval` times |
| ProjectionProperties.AtStartStep | app.js:492-502 | with a deposit before interest in every sub-period and no growth, one sub-period adds the contribution and then multiplies by `1 + periodRate` |
| ProjectionProperties.AnnuityDue | app.js:492-507 | in that setting the balance after `k` sub-periods is the principal compounded `k` times plus `c * x + c * x^2 + ... + c * x^k`, with `x = 1 + periodRate` |
| ProjectionProperties.AtEndStep | app.js:500-507 | with a deposit after interest in every sub-period and no growth, one sub-period multiplies by `1 + periodRate` and then adds the contribution |
| ProjectionProperties.AnnuityImmediate | app.js:492-507 | in that setting the balance after `k` sub-periods is the principal compounded `k` times plus `c + c * x + ... + c * x^(k - 1)`, with `x = 1 + periodRate` |
| ProjectionProperties.DueIsImmediateCompounded | app.js:495-507 | the deposits paid at the start amount to exactly `x` times those paid at the end: each earns one more compounding |
| ProjectionProperties.AnnuityImmediateNonNegative | app.js:504-507 | with a non-negative contribution and `x >= 1` the end-of-period deposits add up to a non-negative amount |
| ProjectionProperties.StartStepDominates | app.js:495-507 | in one sub-period at a non-negative rate and deposit, crediting the deposit before interest from a larger balance never ends below crediting it after interest from a smaller one |
| ProjectionProperties.StartNeverEarnsLess | app.js:495-507 | on any schedule with a non-negative rate and growth, the balance when paying at the start is never below the balance when paying at the end, after any number of sub-periods |
| ProjectionProperties.StartAdvantage | app.js:495-507 | with a deposit every sub-period and no growth, paying at the start ends exactly `periodRate` times the end-of-period deposit sum above paying at the end |
| ProjectionProperties.MonthlySchedule | app.js:459-462 | monthly compounding with monthly deposits over one year gives 12 sub-periods per year, 12 sub-periods in all, and intervals of one |
| ProjectionProperties.MonthlyScenario | app.js:492-507 | for 1000 with monthly deposits of 100 for one year, the contributions at the end are 2200 |
| ProjectionProperties.MonthlyBalance | app.js:492-507 | for the same year at 5%, the final balance is 1000 compounded twelve times at `1 + 0.05 / 12` plus the twelve deposits of 100, each compounded from its own month on |
| Display.StepsOrOne | app.js:49 | `stepPerYear || 1`: never zero, and equal to `stepPerYear` whenever that is not zero |
| Display.ViewFrequency | app.js:50 | the viewing frequency is the input when that is at least one, and one otherwise |
| Display.Stride | app.js:51 | the stride is at least one; it is one only when `stepPerYear / viewFrequency` is below 1.5, and otherwise it lies within one half of that quotient (with `stepPerYear` zero read as one) |
| Display.StrideExact | app.js:51 | when the viewing frequency divides `stepPerYear`, the stride times the viewing frequency is exactly `stepPerYear` |
| Display.Kept | app.js:54 | the first and the last index are always kept, and so is every index at stride one; an index strictly between zero and the stride that is not the last is dropped |
| Display.KeptIndices | app.js:53-54 | the filter's indices are in range and in strictly increasing order; each one is kept (a multiple of the stride, or the last index), and every kept index is present |
| Display.Downsample | app.js:47-60 | the displayed timeline is no longer than the timeline; its `j`-th point is the `j`-th kept entry, relabelled `j` and given the viewing frequency |
| Display.DownsampleKeepsEnds | app.js:53-54 | a non-empty timeline shows at least one point; the first point is entry 0 and the last point is the timeline's last entry |
| Display.DownsamplePreservesOrder | app.js:53-54 | on a projection timeline the displayed steps strictly increase, and each is a multiple of the stride or the final sub-period |
| Display.KeptCount | app.js:53-54 | the number of kept indices from `i` on is the number of multiples of the stride in `[i, n - 1)` plus one for the last index |
| Display.DownsampleLength | app.js:53-54 | a timeline of `n >= 1` entries is shown as `ceil((n - 1) / stride) + 1` points |
| Display.YearlyViewOfMonthlyTimeline | app.js:49-54 | ten years of monthly sub-periods (121 entries) viewed yearly use a stride of 12 and show 11 points |
| Validation.InitialValid | app.js:112 | only a finite amount is accepted; zero and positive amounts are, negative ones are not |
| Validation.PositiveValid | app.js:113-114 | only a finite number is accepted; positive numbers are, zero and negative ones are not |
| Validation.Validate | app.js:109-120 | an error for a field is reported exactly when that field is invalid, so the list is empty exactly when the initial amount is finite, not empty and at least zero and the term and the rate are finite and positive; errors come in the order initial amount, term, rate, with no repeats |

## Left out

- The user interface is not modelled: Vue components, Chart.js rendering, the DOM, page metadata, cookies, the language switch and translations.
- The other helpers of `app.js` are not modelled: `resolveKey`, `formatLabel`, `formatCurrency`, `formatTerm` and the table rows built from the display timeline. They only format what the core computes.
- `addMonths` and `addMonthsDecimal` are not modelled. `addMonthsDecimal` is never called in `app.js`, and `addMonths` is called only by it, so nothing in the engine or the display depends on them.
- The engine always sets `calendarYear` and `calendarMonth` of an entry to null. The model drops these two fields.
- `Boolean(contributeAtStart)` is not modelled: the engine receives `contributeAtStart` as a `bool`, so JavaScript's truthiness of other values is not represented.
- `coerceNumber` and `Number(...)` parsing are not modelled. The engine receives numbers that are already finite, and non-finite fallbacks (such as the contribution frequency defaulting to 12) are not represented.
- Money and rates are exact reals, not IEEE doubles. Rounding error in the running balance is not represented.
- Frequencies are integers. A fractional compounding or contribution frequency would make `Math.round` inside `lcm`, and a non-whole interval, matter; that case is not modelled.
- The entry field `label` is named `periodLabel`, because `label` is a reserved word in Dafny.
- Display.Downsample: the viewing frequency is an integer, because the form offers whole frequencies. A fractional viewing frequency is not modelled.
- Validation.Validate: the messages are error kinds, not translated text. A field is given as empty, finite or non-finite, already converted. A whitespace-only or `null` initial amount, which JavaScript converts to zero, is represented by `Finite(0.0)`.
- Projection.SettlePeriod: one pass of the `for` loop is split into two methods, `EnterPeriod` and `SettlePeriod`. Local variables become their parameters and results.

=== FILE: display.dfy ===
/**
 * The timeline shown in the chart and the table (`displayTimeline` in
 * app.js): the projection's entries thinned out to the viewing frequency the
 * user picked, then relabelled so the chart's x axis counts 0, 1, 2, ...
 *
 * An entry is kept when its index is a multiple of the stride, or when it is
 * the last one; the stride is the number of sub-periods per viewing period.
 */
module Display {
  import opened Numbers
  import opened Projection

  /** `stepPerYear || 1`: only a zero number of sub-periods is replaced. */
  function StepsOrOne(stepPerYear: int): (r: int)
    ensures r != 0
    ensures stepPerYear != 0 ==> r == stepPerYear
  {
    if stepPerYear == 0 then 1 else stepPerYear
  }

  /** The viewing frequency, at least one per year. */
  function ViewFrequency(viewFrequency: int): (r: Pos)
    ensures viewFrequency >= 1 ==> r == viewFrequency
    ensures viewFrequency < 1 ==> r == 1
  {
    MaxInt(1, viewFrequency)
  }

  /**
   * `Math.max(1, Math.round(stepPerYear / viewFreq))`: the number of
   * sub-periods per displayed point, the nearest whole number, at least one.
   */
  function Stride(stepPerYear: int, viewFrequency: int): (r: Pos)
    ensures var q := StepsOrOne(stepPerYear) as real / ViewFrequency(viewFrequency) as real;
      (r == 1 ==> q < 1.5) && (r > 1 ==> r as real - 0.5 <= q < r as real + 0.5)
  {
    MaxInt(1, RoundHalfUp(StepsOrOne(stepPerYear) as real / ViewFrequency(viewFrequency) as real))
  }

  /** When the viewing frequency divides the sub-periods per year, the stride is their quotient. */
  lemma StrideExact(stepPerYear: Pos, viewFrequency: Pos)
    requires stepPerYear % viewFrequency == 0
    ensures Stride(stepPerYear, viewFrequency) * viewFrequency == stepPerYear
  {
    var q := stepPerYear / viewFrequency;
    MultipleMod(viewFrequency, q);
    assert stepPerYear == viewFrequency * q;
    assert stepPerYear as real / viewFrequency as real == q as real;
    RoundOfInteger(q);
    PositiveFactor(viewFrequency, q);
  }

  /** Index `idx` of a timeline of `n` entries is displayed. */
  predicate Kept(n: nat, stride: Pos, idx: nat): (kept: bool)
    ensures idx == 0 || idx + 1 == n || stride == 1 ==> kept
    ensures 0 < idx < stride && idx + 1 != n ==> !kept
  {
    idx % stride == 0 || idx == n - 1
  }

  /**
   * The indices in `[i, n)` the filter lets through, in increasing order:
   * exactly the kept ones, each once.
   */
  function KeptIndices(n: nat, stride: Pos, i: nat): (ks: seq<nat>)
    requires i <= n
    ensures |ks| <= n - i
    ensures forall j :: 0 <= j < |ks| ==> i <= ks[j] < n && Kept(n, stride, ks[j])
    ensures forall j, j' :: 0 <= j < j' < |ks| ==> ks[j] < ks[j']
    ensures forall idx :: i <= idx < n && Kept(n, stride, idx) ==> idx in ks
    decreases n - i
  {
    if i == n then []
    else if Kept(n, stride, i) then [i] + KeptIndices(n, stride, i + 1)
    else KeptIndices(n, stride, i + 1)
  }

  /**
   * `displayTimeline` (app.js): the kept entries, in their original order,
   * each relabelled with its new position and the viewing frequency.
   */
  function Downsample(base: seq<Entry>, stepPerYear: int, viewFrequency: int): (r: seq<Entry>)
    ensures var ks := KeptIndices(|base|, Stride(stepPerYear, viewFrequency), 0);
      |r| == |ks| <= |base| &&
      forall j :: 0 <= j < |r| ==>
        r[j] == base[ks[j]].(periodLabel := j, frequency := ViewFrequency(viewFrequency))
  {
    var ks := KeptIndices(|base|, Stride(stepPerYear, viewFrequency), 0);
    seq(|ks|, j requires 0 <= j < |ks| =>
      base[ks[j]].(periodLabel := j, frequency := ViewFrequency(viewFrequency)))
  }

  /** The displayed timeline starts at the projection's first entry and ends at its last. */
  lemma DownsampleKeepsEnds(base: seq<Entry>, stepPerYear: int, viewFrequency: int)
    requires |base| >= 1
    ensures var r := Downsample(base, stepPerYear, viewFrequency);
      var vf := ViewFrequency(viewFrequency);
      |r| >= 1 &&
      r[0] == base[0].(periodLabel := 0, frequency := vf) &&
      r[|r| - 1] == base[|base| - 1].(periodLabel := |r| - 1, frequency := vf)
  {
    var stride := Stride(stepPerYear, viewFrequency);
    var ks := KeptIndices(|base|, stride, 0);
    assert Kept(|base|, stride, 0);
    assert 0 in ks;
    assert ks[0] == 0;
    var last := |base| - 1;
    assert Kept(|base|, stride, last);
    assert last in ks;
    var p :| 0 <= p < |ks| && ks[p] == last;
    if p < |ks| - 1 {
      assert false;
    }
  }

  /**
   * On a projection's timeline, whose steps count up from zero, the displayed
   * points keep the order of time, and each one is a multiple of the stride
   * or the final sub-period.
   */
  lemma DownsamplePreservesOrder(base: seq<Entry>, stepPerYear: int, viewFrequency: int)
    requires forall k :: 0 <= k < |base| ==> base[k].step == k
    ensures var r := Downsample(base, stepPerYear, viewFrequency);
      (forall j, j' :: 0 <= j < j' < |r| ==> r[j].step < r[j'].step) &&
      (forall j :: 0 <= j < |r| ==> Kept(|base|, Stride(stepPerYear, viewFrequency), r[j].step))
  {
  }

  /**
   * How many kept indices lie in `[i, n)`: the multiples of the stride
   * before the last index, plus the last index itself.
   */
  lemma {:induction false} KeptCount(n: nat, stride: Pos, i: nat)
    requires i < n
    ensures |KeptIndices(n, stride, i)| == CeilDiv(n - 1, stride) - CeilDiv(i, stride) + 1
    decreases n - i
  {
    if i == n - 1 {
    } else {
      KeptCount(n, stride, i + 1);
      CeilDivStep(i, stride);
    }
  }

  /** A timeline of `n >= 1` entries is displayed as `ceil((n - 1) / stride) + 1` points. */
  lemma DownsampleLength(base: seq<Entry>, stepPerYear: int, viewFrequency: int)
    requires |base| >= 1
    ensures |Downsample(base, stepPerYear, viewFrequency)| ==
      CeilDiv(|base| - 1, Stride(stepPerYear, viewFrequency)) + 1
  {
    var stride := Stride(stepPerYear, viewFrequency);
    KeptCount(|base|, stride, 0);
    assert CeilDiv(0, stride) == 0;
  }

  /**
   * Ten years of monthly sub-periods viewed yearly: the stride is twelve and
   * the 121 entries are shown as eleven points, one per year from zero.
   */
  lemma YearlyViewOfMonthlyTimeline(base: seq<Entry>)
    requires |base| == 121
    ensures Stride(12, 1) == 12
    ensures |Downsample(base, 12, 1)| == 11
  {
    StrideExact(12, 1);
    DownsampleLength(base, 12, 1);
    assert CeilDiv(120, 12) == 10;
  }
}

=== FILE: numbers.dfy ===
/**
 * Integer helpers of the calculator: Euclid's greatest common divisor, the
 * least common multiple built on it, and JavaScript's `Math.round`.
 *
 * A divisor relation is written `n % d == 0` with `d > 0` throughout.
 */
module Numbers {

  /** Integers that are at least one: frequencies and intervals. */
  type Pos = n: int | n >= 1 witness 1

  /** `Math.max(1, Math.abs(Math.round(a)))` on an integer argument. */
  function AtLeastOne(a: int): (r: Pos)
    ensures r >= a && r >= -a
    ensures r == 1 || r == a || r == -a
  {
    if a >= 1 then a else if -a >= 1 then -a else 1
  }

  /** `Math.round`: halves are rounded towards positive infinity. */
  function RoundHalfUp(x: real): (r: int)
    ensures r as real <= x + 0.5 < r as real + 1.0
  {
    (x + 0.5).Floor
  }

  lemma RoundOfInteger(n: int)
    ensures RoundHalfUp(n as real) == n
  {
    assert n as real <= n as real + 0.5 < (n + 1) as real;
  }

  // ---------------------------------------------------------------------
  // Divisibility
  // ---------------------------------------------------------------------

  lemma MultipleMod(d: int, m: int)
    requires d > 0
    ensures (d * m) % d == 0 && (d * m) / d == m
  {
    var q, t := (d * m) / d, (d * m) % d;
    assert d * m == d * q + t && 0 <= t < d;
    assert t == d * (m - q);
    if m - q >= 1 {
      assert false;
    } else if m - q <= -1 {
      assert false;
    }
  }

  /** Quotient and remainder are unique. */
  lemma DivUnique(x: int, n: int, a: int, r: int)
    requires n > 0 && 0 <= r < n && x == n * a + r
    ensures x / n == a && x % n == r
  {
    var q, t := x / n, x % n;
    assert n * (a - q) == t - r;
    if a - q >= 1 {
      assert false;
    } else if a - q <= -1 {
      assert false;
    }
  }

  /** Counting up by one, the quotient stays or grows by exactly one. */
  lemma DivStep(q: nat, n: Pos)
    ensures q / n <= (q + 1) / n <= q / n + 1
    ensures (q + 1) / n == q / n + 1 <==> (q + 1) % n == 0
  {
    var a, r := q / n, q % n;
    if r + 1 < n {
      DivUnique(q + 1, n, a, r + 1);
    } else {
      DivUnique(q + 1, n, a + 1, 0);
    }
  }

  /** Adding a whole multiple of `n` shifts the quotient and keeps the remainder. */
  lemma DivShift(q: int, n: Pos, k: int)
    ensures (q + n * k) / n == q / n + k && (q + n * k) % n == q % n
  {
    DivUnique(q + n * k, n, q / n + k, q % n);
  }

  /** `k / d` rounded up: how many multiples of `d` lie in `[0, k)`. */
  function CeilDiv(k: nat, d: Pos): nat
  {
    (k + d - 1) / d
  }

  /** One more multiple is counted exactly when `q` itself is a multiple. */
  lemma CeilDivStep(q: nat, d: Pos)
    ensures CeilDiv(q + 1, d) == CeilDiv(q, d) + (if q % d == 0 then 1 else 0)
  {
    DivStep(q + d - 1, d);
    DivShift(q, d, 1);
  }

  /** A divisor of `x` and `y` divides every `x + q * y`. */
  lemma DividesCombination(d: int, x: int, y: int, q: int)
    requires d > 0 && x % d == 0 && y % d == 0
    ensures (x + q * y) % d == 0
  {
    var u, v := x / d, y / d;
    assert x == d * u && y == d * v;
    assert x + q * y == d * (u + q * v) by {
      assert q * y == q * (d * v) == d * (q * v);
    }
    MultipleMod(d, u + q * v);
  }

  // ---------------------------------------------------------------------
  // Greatest common divisor
  // ---------------------------------------------------------------------

  /** Euclid's algorithm, as a recursive definition. */
  function GcdOf(a: nat, b: nat): nat
    decreases b
  {
    if b == 0 then a else GcdOf(b, a % b)
  }

  /** The gcd of two numbers, not both zero, is positive and divides both. */
  lemma {:induction false} GcdDivides(a: nat, b: nat)
    requires a > 0 || b > 0
    ensures GcdOf(a, b) > 0 && a % GcdOf(a, b) == 0 && b % GcdOf(a, b) == 0
    decreases b
  {
    if b != 0 {
      GcdDivides(b, a % b);
      var g := GcdOf(a, b);
      assert a == a % b + (a / b) * b;
      DividesCombination(g, a % b, b, a / b);
    }
  }

  /** Every common divisor of `a` and `b` divides their gcd. */
  lemma {:induction false} CommonDivisorDividesGcd(a: nat, b: nat, d: int)
    requires d > 0 && a % d == 0 && b % d == 0
    ensures GcdOf(a, b) % d == 0
    decreases b
  {
    if b != 0 {
      assert a % b == a + (-(a / b)) * b;
      DividesCombination(d, a, b, -(a / b));
      CommonDivisorDividesGcd(b, a % b, d);
    }
  }

  /** Bezout's identity: the gcd is an integer combination of the arguments. */
  lemma {:induction false} Bezout(a: nat, b: nat) returns (x: int, y: int)
    ensures a * x + b * y == GcdOf(a, b)
    decreases b
  {
    if b == 0 {
      x, y := 1, 0;
    } else {
      var x', y' := Bezout(b, a % b);
      var q := a / b;
      assert a % b == a - q * b;
      x, y := y', x' - q * y';
      calc {
        a * x + b * y;
        a * y' + b * x' - b * (q * y');
        { assert b * (q * y') == (q * b) * y'; }
        b * x' + (a - q * b) * y';
        b * x' + (a % b) * y';
      }
    }
  }

  /**
   * `gcd(a, b)` (app.js): Euclid's loop, swapping `x` and `y` until `y` is zero.
   */
  method Gcd(a: nat, b: nat) returns (x: nat)
    ensures x == GcdOf(a, b)
    ensures a > 0 || b > 0 ==> x > 0 && a % x == 0 && b % x == 0
    ensures forall d :: d > 0 && a % d == 0 && b % d == 0 ==> x % d == 0
  {
    x := a;
    var y: nat := b;
    while y != 0
      invariant GcdOf(x, y) == GcdOf(a, b)
      decreases y
    {
      var temp := y;
      y := x % y;
      x := temp;
    }
    if a > 0 || b > 0 {
      GcdDivides(a, b);
    }
    forall d | d > 0 && a % d == 0 && b % d == 0
      ensures x % d == 0
    {
      CommonDivisorDividesGcd(a, b, d);
    }
  }

  // ---------------------------------------------------------------------
  // Least common multiple
  // ---------------------------------------------------------------------

  /** Dividing a multiple `g * k` of `g` times `y` by `g` leaves `k * y`. */
  lemma CancelFactor(g: int, k: int, y: int)
    requires g > 0
    ensures ((g * k) * y) % g == 0 && ((g * k) * y) / g == k * y
  {
    assert (g * k) * y == g * (k * y);
    MultipleMod(g, k * y);
  }

  /** `x * y / g` for a divisor `g` of `x` is a positive multiple of `y`, and exact. */
  lemma QuotientIsMultiple(x: Pos, y: Pos, g: int)
    requires g > 0 && x % g == 0
    ensures (x * y) % g == 0 && (x * y) / g >= 1
    ensures ((x * y) / g) % y == 0 && ((x * y) / g) * g == x * y
  {
    var k := x / g;
    assert x == g * k;
    PositiveFactor(g, k);
    CancelFactor(g, k, y);
    assert x * y == (g * k) * y;
    PositiveProduct(k, y);
    MultipleMod(y, k);
    assert (k * y) * g == (g * k) * y;
  }

  lemma QuotientFacts(x: Pos, y: Pos)
    ensures var g := GcdOf(x, y);
      g > 0 && (x * y) % g == 0 && (x * y) / g >= 1 &&
      ((x * y) / g) % x == 0 && ((x * y) / g) % y == 0 &&
      ((x * y) / g) * g == x * y
  {
    GcdDivides(x, y);
    var g := GcdOf(x, y);
    QuotientIsMultiple(x, y, g);
    QuotientIsMultiple(y, x, g);
    assert y * x == x * y;
  }

  lemma PositiveFactor(g: int, k: int)
    requires g > 0 && g * k >= 1
    ensures k >= 1
  {
    if k <= 0 {
      assert false;
    }
  }

  lemma PositiveProduct(k: int, y: int)
    requires k >= 1 && y >= 1
    ensures k * y >= 1 && (y * k) == k * y
  {
    assert k * y >= 1 * y;
  }

  /**
   * `lcm(a, b)` (app.js): both arguments are made at least one, and the
   * product is divided by their gcd. The division is exact.
   */
  function Lcm(a: int, b: int): (r: Pos)
    ensures r % AtLeastOne(a) == 0 && r % AtLeastOne(b) == 0
    ensures r * GcdOf(AtLeastOne(a), AtLeastOne(b)) == AtLeastOne(a) * AtLeastOne(b)
  {
    var x, y := AtLeastOne(a), AtLeastOne(b);
    QuotientFacts(x, y);
    (x * y) / GcdOf(x, y)
  }

  lemma Distribute(m: int, p: int, q: int)
    ensures m * (p + q) == m * p + m * q
  {
  }

  lemma Regroup(p: int, t: int, q: int, u: int)
    ensures (p * t) * (q * u) == (p * q) * (t * u)
  {
  }

  lemma CancelCommon(g: int, m: int, n: int)
    requires g > 0 && g * m == g * n
    ensures m == n
  {
    MultipleMod(g, m);
    MultipleMod(g, n);
  }

  /**
   * With `g == x * u + y * v` and `l * g == x * y`, every common multiple of
   * `x` and `y` is a multiple of `l`.
   */
  lemma MultipleOfQuotient(x: int, y: int, g: int, l: int, u: int, v: int, m: int)
    requires x > 0 && y > 0 && g > 0 && l > 0
    requires x * u + y * v == g && l * g == x * y
    requires m % x == 0 && m % y == 0
    ensures m % l == 0
  {
    var s, t := m / x, m / y;
    assert m == x * s && m == y * t;
    var w := t * u + s * v;
    assert m * g == (x * y) * w by {
      Distribute(m, x * u, y * v);
      assert m * (x * u) == (x * y) * (t * u) by {
        Regroup(y, t, x, u);
        assert y * x == x * y;
      }
      assert m * (y * v) == (x * y) * (s * v) by {
        Regroup(x, s, y, v);
      }
      Distribute(x * y, t * u, s * v);
    }
    assert (x * y) * w == g * (l * w) by {
      Regroup(l, w, g, 1);
    }
    assert m == l * w by {
      assert g * m == m * g;
      CancelCommon(g, m, l * w);
    }
    MultipleMod(l, w);
  }

  /** `Lcm` is the least common multiple: it divides every common multiple. */
  lemma LcmIsLeast(a: int, b: int, m: int)
    requires m % AtLeastOne(a) == 0 && m % AtLeastOne(b) == 0
    ensures m % Lcm(a, b) == 0
  {
    var x, y := AtLeastOne(a), AtLeastOne(b);
    GcdDivides(x, y);
    var u, v := Bezout(x, y);
    MultipleOfQuotient(x, y, GcdOf(x, y), Lcm(a, b), u, v, m);
  }
}

=== FILE: projection.dfy ===
/**
 * The projection engine of the compound-interest calculator (`projectGrowth`
 * in app.js).
 *
 * The engine lays interest compounding and contribution deposits onto one
 * timeline of sub-periods, `stepPerYear = lcm(frequency, contributionFrequency)`
 * of them per year, and records the running balance and the running total of
 * deposited money after every sub-period.
 *
 * The specification is given by the functions `Normalize`, `Deposit`,
 * `SettleBalance`, `BalanceAt`, `ContributionsAt` and `EntryAt`. The method
 * `RunSchedule` is the engine's loop, proved to produce exactly the entries
 * they describe; `ProjectGrowth` normalises the input and calls it. The lemmas
 * state what the calculator promises of every projection.
 */
module Projection {
  import opened Numbers

  /** The form snapshot the engine is called with, already numeric. */
  datatype ProjectionInput = ProjectionInput(
    initial: real,
    contribution: real,
    contributionFrequency: int,
    contributionGrowth: real,   // percent per year
    contributeAtStart: bool,
    rate: real,                 // nominal annual rate, percent
    years: real,
    frequency: int)

  /** One snapshot of the timeline, taken after each sub-period. */
  datatype Entry = Entry(
    periodLabel: nat,       // `label` in app.js
    step: nat,
    balance: real,
    contributions: real,
    interest: real,
    frequency: int,
    stepPerYear: int)

  datatype ProjectionResult = ProjectionResult(
    finalBalance: real,
    totalContributions: real,
    totalInterest: real,
    timeline: seq<Entry>,
    stepPerYear: int)

  /** The inputs after clamping, and the schedule derived from them. */
  datatype Schedule = Schedule(
    initial: real,
    contribution: real,
    growth: real,               // fraction per year, never negative
    atStart: bool,
    frequency: Pos,
    contributionFrequency: Pos,
    stepPerYear: Pos,
    periods: nat,
    interestInterval: Pos,
    contributionInterval: Pos,
    periodRate: real)

  function Max(x: real, y: real): real
  {
    if x >= y then x else y
  }

  function MaxInt(x: int, y: int): int
  {
    if x >= y then x else y
  }

  /**
   * `Math.max(1, stepPerYear / freq)`: the number of sub-periods between two
   * events of a frequency that divides `stepPerYear`, a whole number.
   */
  function Interval(stepPerYear: Pos, freq: Pos): (r: Pos)
    requires stepPerYear % freq == 0
    ensures r * freq == stepPerYear
  {
    MultipleMod(freq, stepPerYear / freq);
    MaxInt(1, stepPerYear / freq)
  }

  /** `Math.max(0, Math.round(years * stepPerYear))` for clamped `years`. */
  function Periods(years: real, stepPerYear: Pos): (r: nat)
    requires years >= 0.0
    ensures r as real <= years * stepPerYear as real + 0.5
    ensures years * stepPerYear as real + 0.5 < r as real + 1.0
  {
    MaxInt(0, RoundHalfUp(years * stepPerYear as real))
  }

  /** Both intervals are whole numbers of sub-periods. */
  predicate Aligned(s: Schedule)
  {
    s.interestInterval * s.frequency == s.stepPerYear &&
    s.contributionInterval * s.contributionFrequency == s.stepPerYear
  }

  /**
   * The normalisation at the top of `projectGrowth`: years are clamped at
   * zero, frequencies at one, the growth percentage at zero. The number of
   * sub-periods per year is the lcm of the two frequencies, so both intervals
   * come out as whole numbers of sub-periods.
   */
  function Normalize(input: ProjectionInput): (s: Schedule)
    ensures s.initial == input.initial && s.contribution == input.contribution
    ensures s.atStart == input.contributeAtStart
    ensures s.frequency == (if input.frequency >= 1 then input.frequency else 1)
    ensures s.contributionFrequency ==
      (if input.contributionFrequency >= 1 then input.contributionFrequency else 1)
    ensures s.stepPerYear == Lcm(s.frequency, s.contributionFrequency)
    ensures Aligned(s)
    ensures s.periods == Periods(Max(0.0, input.years), s.stepPerYear)
    ensures s.growth * 100.0 == Max(0.0, input.contributionGrowth)
    ensures s.growth == 0.0 <==> input.contributionGrowth <= 0.0
    ensures s.periodRate == input.rate / 100.0 / s.frequency as real
    ensures s.periodRate == 0.0 <==> input.rate == 0.0
    ensures s.periodRate >= 0.0 <==> input.rate >= 0.0
  {
    var frequency: Pos := MaxInt(1, input.frequency);
    var contributionFrequency: Pos := MaxInt(1, input.contributionFrequency);
    var stepPerYear := Lcm(frequency, contributionFrequency);
    var periodRate := input.rate / 100.0 / frequency as real;
    Schedule(
      input.initial,
      input.contribution,
      Max(0.0, input.contributionGrowth) / 100.0,
      input.contributeAtStart,
      frequency,
      contributionFrequency,
      stepPerYear,
      Periods(Max(0.0, input.years), stepPerYear),
      Interval(stepPerYear, frequency),
      Interval(stepPerYear, contributionFrequency),
      periodRate)
  }

  /** `x` raised to the `n`th power. */
  function Pow(x: real, n: nat): real
  {
    if n == 0 then 1.0 else x * Pow(x, n - 1)
  }

  lemma {:induction false} PowAtLeastOne(x: real, n: nat)
    requires x >= 1.0
    ensures Pow(x, n) >= 1.0
  {
    if n > 0 {
      PowAtLeastOne(x, n - 1);
      assert x * Pow(x, n - 1) >= 1.0 * Pow(x, n - 1);
    }
  }

  /** Sub-period `period` (from one) belongs to calendar year `YearOf(...)` (from zero). */
  function YearOf(s: Schedule, period: nat): (year: nat)
    requires period >= 1
    ensures year * s.stepPerYear <= period - 1 < (year + 1) * s.stepPerYear
  {
    (period - 1) / s.stepPerYear
  }

  /** A deposit is scheduled on the first sub-period of every contribution interval. */
  predicate IsContributionPeriod(s: Schedule, period: nat): (deposits: bool)
    requires period >= 1
    ensures deposits ==> s.contribution > 0.0
    ensures period == 1 && s.contribution > 0.0 ==> deposits
    ensures s.contributionInterval == 1 ==> (deposits <==> s.contribution > 0.0)
    ensures 1 < period <= s.contributionInterval ==> !deposits
  {
    (period - 1) % s.contributionInterval == 0 && s.contribution > 0.0
  }

  /** The deposit schedule repeats every `contributionInterval` sub-periods, whatever the growth. */
  lemma ContributionPeriodRecurs(s: Schedule, period: nat)
    requires period >= 1
    ensures IsContributionPeriod(s, period + s.contributionInterval) == IsContributionPeriod(s, period)
  {
    DivShift(period - 1, s.contributionInterval, 1);
  }

  /** Interest is applied at the end of every interest interval. */
  predicate IsInterestPeriod(s: Schedule, period: nat): (accrues: bool)
    ensures period == 0 || period == s.interestInterval || s.interestInterval == 1 ==> accrues
    ensures 0 < period < s.interestInterval ==> !accrues
  {
    period % s.interestInterval == 0
  }

  /** The per-event contribution in year `year`: grown once per elapsed year. */
  function PerEvent(s: Schedule, year: nat): real
  {
    s.contribution * Pow(1.0 + s.growth, year)
  }

  lemma PerEventNextYear(s: Schedule, year: nat)
    ensures PerEvent(s, year + 1) == PerEvent(s, year) * (1.0 + s.growth)
  {
    assert Pow(1.0 + s.growth, year + 1) == (1.0 + s.growth) * Pow(1.0 + s.growth, year);
  }

  /**
   * The amount deposited in sub-period `period`: the per-event contribution
   * of its year on a contribution period, nothing otherwise.
   */
  function Deposit(s: Schedule, period: nat): (r: real)
    requires period >= 1
    ensures r == 0.0 ||
      ((period - 1) % s.contributionInterval == 0 && s.contribution > 0.0 && r == PerEvent(s, YearOf(s, period)))
  {
    if IsContributionPeriod(s, period) then PerEvent(s, YearOf(s, period)) else 0.0
  }

  /** The balance once the deposit is credited, if it is credited before interest. */
  function Credit(s: Schedule, balance: real, deposit: real): real
  {
    if s.atStart then balance + deposit else balance
  }

  /** The balance once interest is applied, on an interest period. */
  function Accrue(s: Schedule, k: nat, balance: real): real
  {
    if IsInterestPeriod(s, k) then balance * (1.0 + s.periodRate) else balance
  }

  /** The balance once the deposit is credited, if it is credited after interest. */
  function Settle(s: Schedule, balance: real, deposit: real): real
  {
    if s.atStart then balance else balance + deposit
  }

  /**
   * The balance at the end of sub-period `k`, from `balance` at its start:
   * the deposit is credited before interest when `atStart` holds, and after
   * it otherwise.
   */
  function SettleBalance(s: Schedule, k: nat, balance: real): (r: real)
    requires k >= 1
    ensures !IsInterestPeriod(s, k) ==> r == balance + Deposit(s, k)
  {
    var d := Deposit(s, k);
    Settle(s, Accrue(s, k, Credit(s, balance, d)), d)
  }

  /**
   * On an interest period the order of the two steps decides what the deposit
   * earns: paid at the start it is compounded with the balance, paid at the
   * end it is added after interest and earns nothing in that sub-period.
   */
  lemma SettleOrder(s: Schedule, k: nat, balance: real)
    requires k >= 1 && IsInterestPeriod(s, k)
    ensures s.atStart ==> SettleBalance(s, k, balance) == (balance + Deposit(s, k)) * (1.0 + s.periodRate)
    ensures !s.atStart ==> SettleBalance(s, k, balance) == balance * (1.0 + s.periodRate) + Deposit(s, k)
  {
  }

  /** The balance after `k` sub-periods. */
  function BalanceAt(s: Schedule, k: nat): (r: real)
    ensures s.initial == 0.0 && s.contribution <= 0.0 ==> r == 0.0
  {
    if k == 0 then s.initial else SettleBalance(s, k, BalanceAt(s, k - 1))
  }

  /** The money deposited after `k` sub-periods, the initial principal included. */
  function ContributionsAt(s: Schedule, k: nat): (r: real)
    ensures s.contribution <= 0.0 ==> r == s.initial
  {
    if k == 0 then s.initial else ContributionsAt(s, k - 1) + Deposit(s, k)
  }

  /** The timeline entry recorded after `k` sub-periods. */
  function EntryAt(s: Schedule, k: nat): (e: Entry)
    ensures e.step == k && e.periodLabel == k
    ensures e.balance == BalanceAt(s, k) && e.contributions == ContributionsAt(s, k)
    ensures e.interest >= 0.0 && e.interest >= e.balance - e.contributions
    ensures e.interest == 0.0 || e.interest == e.balance - e.contributions
  {
    var balance, contributions := BalanceAt(s, k), ContributionsAt(s, k);
    Entry(k, k, balance, contributions, Max(0.0, balance - contributions),
          s.frequency, s.stepPerYear)
  }

  /** The year index of the last processed sub-period, zero before the first. */
  function YearBefore(s: Schedule, period: nat): nat
    requires period >= 1
  {
    if period == 1 then 0 else YearOf(s, period - 1)
  }

  /** Moving on one sub-period, the year index stays or grows by exactly one. */
  lemma YearAdvance(s: Schedule, period: nat)
    requires period >= 1
    ensures YearBefore(s, period) <= YearOf(s, period) <= YearBefore(s, period) + 1
  {
    if period > 1 {
      DivStep(period - 2, s.stepPerYear);
    }
  }

  /** The timeline of the first `n` sub-periods: one entry per sub-period, from zero. */
  function Timeline(s: Schedule, n: nat): (t: seq<Entry>)
    ensures |t| == n + 1
    ensures forall k :: 0 <= k <= n ==> t[k] == EntryAt(s, k)
  {
    if n == 0 then [EntryAt(s, 0)] else Timeline(s, n - 1) + [EntryAt(s, n)]
  }

  /** The entry recorded after sub-period `n` extends the timeline by one. */
  lemma TimelineAppend(s: Schedule, n: nat, t: seq<Entry>, balance: real, contributions: real)
    requires n >= 1 && t == Timeline(s, n - 1)
    requires balance == BalanceAt(s, n) && contributions == ContributionsAt(s, n)
    ensures t + [Entry(n, n, balance, contributions, Max(0.0, balance - contributions), s.frequency, s.stepPerYear)]
      == Timeline(s, n)
  {
  }

  /** What every timeline promises: its steps count up from zero, interest is never negative. */
  lemma TimelineShape(s: Schedule, n: nat)
    ensures var t := Timeline(s, n);
      t[0].balance == s.initial && t[0].contributions == s.initial && t[0].interest == 0.0 &&
      forall k :: 0 <= k < |t| ==> t[k].step == k && t[k].periodLabel == k && t[k].interest >= 0.0
  {
  }

  /**
   * `projectGrowth` (app.js): the inputs are normalised first, then the
   * schedule is run.
   */
  method ProjectGrowth(input: ProjectionInput) returns (res: ProjectionResult)
    ensures var s := Normalize(input);
      res.stepPerYear == s.stepPerYear && res.timeline == Timeline(s, s.periods)
    ensures |res.timeline| == Normalize(input).periods + 1
    ensures forall k :: 0 <= k < |res.timeline| ==>
      res.timeline[k].step == k && res.timeline[k].interest >= 0.0
    ensures res.timeline[0].balance == input.initial && res.timeline[0].contributions == input.initial
    ensures res.timeline[0].interest == 0.0
    ensures res.finalBalance == res.timeline[|res.timeline| - 1].balance
    ensures res.totalContributions == res.timeline[|res.timeline| - 1].contributions
    ensures res.totalInterest == Max(0.0, res.finalBalance - res.totalContributions)
  {
    var s := Normalize(input);
    res := RunSchedule(s);
    TimelineShape(s, s.periods);
  }

  /**
   * The start of a pass of the loop of `projectGrowth` (app.js): on entering
   * a new year the per-event contribution grows once.
   */
  method EnterPeriod(s: Schedule, period: nat, currentYear0: nat, contributionPerEvent0: real)
    returns (currentYear: nat, contributionPerEvent: real)
    requires period >= 1
    requires currentYear0 == YearBefore(s, period) && contributionPerEvent0 == PerEvent(s, currentYear0)
    ensures currentYear == YearOf(s, period) && contributionPerEvent == PerEvent(s, currentYear)
  {
    currentYear, contributionPerEvent := currentYear0, contributionPerEvent0;
    var periodYear := (period - 1) / s.stepPerYear;
    YearAdvance(s, period);
    if periodYear > currentYear {
      PerEventNextYear(s, currentYear);
      currentYear := periodYear;
      contributionPerEvent := contributionPerEvent * (1.0 + s.growth);
    }
  }

  /**
   * The rest of the pass: a scheduled deposit of the current per-event amount
   * is credited before or after interest, and interest is applied at the end
   * of each interest interval.
   */
  method SettlePeriod(s: Schedule, period: nat, balance0: real, contributions0: real, contributionPerEvent: real)
    returns (balance: real, contributions: real)
    requires period >= 1
    requires contributionPerEvent == PerEvent(s, YearOf(s, period))
    ensures balance == SettleBalance(s, period, balance0)
    ensures contributions == contributions0 + Deposit(s, period)
  {
    balance, contributions := balance0, contributions0;
    ghost var deposit := Deposit(s, period);

    var isContributionPeriod := (period - 1) % s.contributionInterval == 0 && s.contribution > 0.0;
    var contributionThisStep := if isContributionPeriod then contributionPerEvent else 0.0;
    assert contributionThisStep == deposit;

    if isContributionPeriod && s.atStart {
      balance := balance + contributionThisStep;
      contributions := contributions + contributionThisStep;
    }

    if period % s.interestInterval == 0 {
      balance := balance * (1.0 + s.periodRate);
    }

    if isContributionPeriod && !s.atStart {
      balance := balance + contributionThisStep;
      contributions := contributions + contributionThisStep;
    }
  }

  /**
   * The loop of `projectGrowth` (app.js) over a normalised schedule. It keeps
   * the per-event contribution and grows it once whenever a new year starts;
   * deposits and interest follow the two intervals; one entry is pushed for
   * every sub-period. The summaries are read off the last entry.
   */
  method RunSchedule(s: Schedule) returns (res: ProjectionResult)
    ensures res.stepPerYear == s.stepPerYear && res.timeline == Timeline(s, s.periods)
    ensures res.finalBalance == BalanceAt(s, s.periods)
    ensures res.totalContributions == ContributionsAt(s, s.periods)
    ensures res.totalInterest == Max(0.0, res.finalBalance - res.totalContributions)
  {
    var stepPerYear := s.stepPerYear;
    var timeline := [Entry(0, 0, s.initial, s.initial, 0.0, s.frequency, stepPerYear)];

    var balance := s.initial;
    var contributions := s.initial;
    var currentYear: nat := 0;
    var contributionPerEvent := s.contribution;

    var period := 1;
    while period <= s.periods
      invariant 1 <= period <= s.periods + 1
      invariant |timeline| == period
      invariant timeline == Timeline(s, period - 1)
      invariant balance == BalanceAt(s, period - 1) && contributions == ContributionsAt(s, period - 1)
      invariant currentYear == YearBefore(s, period)
      invariant contributionPerEvent == PerEvent(s, currentYear)
    {
      currentYear, contributionPerEvent := EnterPeriod(s, period, currentYear, contributionPerEvent);
      balance, contributions := SettlePeriod(s, period, balance, contributions, contributionPerEvent);

      var interest := Max(0.0, balance - contributions);
      TimelineAppend(s, period, timeline, balance, contributions);
      timeline := timeline + [Entry(period, period, balance, contributions, interest, s.frequency, stepPerYear)];
      period := period + 1;
    }

    res := ProjectionResult(balance, contributions, Max(0.0, balance - contributions), timeline, stepPerYear);
  }
}

=== FILE: projection_properties.dfy ===
/**
 * What every projection promises, stated over the specification functions of
 * `Projection`. `ProjectGrowth` returns exactly `Timeline(Normalize(input),
 * periods)`, so each lemma is a statement about the timeline the calculator
 * shows. The lemmas take the schedule itself; the contract of `Normalize`
 * turns their conditions back into conditions on the form (`growth` is never
 * negative and is zero exactly when the growth percentage is at most zero,
 * `periodRate` is zero or non-negative exactly when the rate is, and the
 * schedule is always `Aligned`).
 */
module ProjectionProperties {
  import opened Numbers
  import opened Projection

  lemma {:induction false} PowOfOne(n: nat)
    ensures Pow(1.0, n) == 1.0
  {
    if n > 0 {
      PowOfOne(n - 1);
    }
  }

  /** A deposit is never negative, and it is positive exactly on contribution periods. */
  lemma DepositSign(s: Schedule, period: nat)
    requires period >= 1 && s.growth >= 0.0
    ensures Deposit(s, period) >= 0.0
    ensures Deposit(s, period) > 0.0 <==> IsContributionPeriod(s, period)
  {
    var y := YearOf(s, period);
    PowAtLeastOne(1.0 + s.growth, y);
    if IsContributionPeriod(s, period) {
      assert s.contribution * Pow(1.0 + s.growth, y) >= s.contribution * 1.0;
    }
  }

  /** The running total of contributions never decreases along the timeline. */
  lemma {:induction false} ContributionsNonDecreasing(s: Schedule, i: nat, j: nat)
    requires i <= j && s.growth >= 0.0
    ensures ContributionsAt(s, i) <= ContributionsAt(s, j)
    decreases j
  {
    if i < j {
      ContributionsNonDecreasing(s, i, j - 1);
      DepositSign(s, j);
    }
  }

  /** With a zero rate the multiplier is one, so the balance is exactly what was deposited. */
  lemma {:induction false} ZeroRateNoInterest(s: Schedule, k: nat)
    requires s.periodRate == 0.0
    ensures BalanceAt(s, k) == ContributionsAt(s, k)
  {
    if k > 0 {
      ZeroRateNoInterest(s, k - 1);
    }
  }

  /**
   * With a non-negative principal and rate, the balance covers everything
   * deposited, so an entry's `interest` is exactly what interest has earned.
   */
  lemma {:induction false} BalanceCoversContributions(s: Schedule, k: nat)
    requires s.initial >= 0.0 && s.periodRate >= 0.0 && s.growth >= 0.0
    ensures 0.0 <= ContributionsAt(s, k) <= BalanceAt(s, k)
  {
    if k > 0 {
      BalanceCoversContributions(s, k - 1);
      DepositSign(s, k);
      SettleKeepsCover(s, k, BalanceAt(s, k - 1), ContributionsAt(s, k - 1));
    }
  }

  /**
   * One sub-period at a non-negative rate and deposit: a balance that covers
   * the contributions does not fall, and still covers them with the deposit.
   */
  lemma SettleKeepsCover(s: Schedule, k: nat, balance: real, contributions: real)
    requires k >= 1 && s.periodRate >= 0.0 && Deposit(s, k) >= 0.0
    requires 0.0 <= contributions <= balance
    ensures balance <= SettleBalance(s, k, balance)
    ensures contributions + Deposit(s, k) <= SettleBalance(s, k, balance)
  {
  }

  /** Under the same conditions the balance never decreases from one entry to the next. */
  lemma BalanceNonDecreasing(s: Schedule, k: nat)
    requires s.initial >= 0.0 && s.periodRate >= 0.0 && s.growth >= 0.0 && k >= 1
    ensures BalanceAt(s, k - 1) <= BalanceAt(s, k)
  {
    BalanceCoversContributions(s, k - 1);
    DepositSign(s, k);
    SettleKeepsCover(s, k, BalanceAt(s, k - 1), ContributionsAt(s, k - 1));
  }

  /**
   * For a form with a non-negative principal and rate, every entry of the
   * projected timeline reports as interest exactly the balance minus the
   * money deposited, and the balance never falls from one entry to the next.
   */
  lemma InterestIsEarned(input: ProjectionInput)
    requires input.initial >= 0.0 && input.rate >= 0.0
    ensures var s := Normalize(input);
      var t := Timeline(s, s.periods);
      (forall k :: 0 <= k < |t| ==>
        0.0 <= t[k].contributions <= t[k].balance &&
        t[k].interest == t[k].balance - t[k].contributions) &&
      (forall k :: 1 <= k < |t| ==> t[k - 1].balance <= t[k].balance)
  {
    var s := Normalize(input);
    forall k | 0 <= k <= s.periods
      ensures 0.0 <= ContributionsAt(s, k) <= BalanceAt(s, k)
    {
      BalanceCoversContributions(s, k);
    }
    forall k | 1 <= k <= s.periods
      ensures BalanceAt(s, k - 1) <= BalanceAt(s, k)
    {
      BalanceNonDecreasing(s, k);
    }
  }

  /**
   * At a zero rate every entry of the projected timeline has its balance equal
   * to the money deposited and no interest; without a positive contribution
   * every entry's contributions stay at the initial amount.
   */
  lemma FormShortcuts(input: ProjectionInput)
    ensures var s := Normalize(input);
      var t := Timeline(s, s.periods);
      (input.rate == 0.0 ==> forall k :: 0 <= k < |t| ==>
        t[k].balance == t[k].contributions && t[k].interest == 0.0) &&
      (input.contribution <= 0.0 ==> forall k :: 0 <= k < |t| ==> t[k].contributions == input.initial)
  {
    var s := Normalize(input);
    if input.rate == 0.0 {
      forall k | 0 <= k <= s.periods
        ensures BalanceAt(s, k) == ContributionsAt(s, k)
      {
        ZeroRateNoInterest(s, k);
      }
    }
  }

  /**
   * One year later the same slot of the contribution schedule deposits the
   * amount grown once more by the growth rate: growth compounds per elapsed year.
   */
  lemma DepositNextYear(s: Schedule, period: nat)
    requires period >= 1 && Aligned(s)
    ensures Deposit(s, period + s.stepPerYear) == (1.0 + s.growth) * Deposit(s, period)
  {
    var q := period - 1;
    DivShift(q, s.contributionInterval, s.contributionFrequency);
    DivShift(q, s.stepPerYear, 1);
    assert YearOf(s, period + s.stepPerYear) == YearOf(s, period) + 1;
    PerEventNextYear(s, YearOf(s, period));
  }

  /**
   * Without growth, the total deposited after `k` sub-periods is `initial`
   * plus one contribution per contribution interval started so far.
   */
  lemma {:induction false} FlatContributionsTotal(s: Schedule, k: nat)
    requires s.contribution > 0.0 && s.growth == 0.0
    ensures ContributionsAt(s, k) == s.initial + s.contribution * CeilDiv(k, s.contributionInterval) as real
  {
    if k == 0 {
      DivUnique(s.contributionInterval - 1, s.contributionInterval, 0, s.contributionInterval - 1);
      assert CeilDiv(0, s.contributionInterval) == 0;
    } else {
      FlatContributionsTotal(s, k - 1);
      FlatDeposit(s, k);
      CeilDivStep(k - 1, s.contributionInterval);
      var n, m := CeilDiv(k - 1, s.contributionInterval), CeilDiv(k, s.contributionInterval);
      assert ContributionsAt(s, k) == ContributionsAt(s, k - 1) + Deposit(s, k);
      if (k - 1) % s.contributionInterval == 0 {
        assert s.contribution * m as real == s.contribution * n as real + s.contribution by {
          assert m == n + 1;
        }
      }
    }
  }

  lemma FlatDeposit(s: Schedule, k: nat)
    requires k >= 1 && s.contribution > 0.0 && s.growth == 0.0
    ensures Deposit(s, k) == if (k - 1) % s.contributionInterval == 0 then s.contribution else 0.0
  {
    PowOfOne(YearOf(s, k));
  }

  /** A sub-period without a deposit only applies interest, and only on an interest period. */
  lemma NoDepositStep(s: Schedule, k: nat)
    requires k >= 1 && Deposit(s, k) == 0.0
    ensures BalanceAt(s, k) ==
      if IsInterestPeriod(s, k) then BalanceAt(s, k - 1) * (1.0 + s.periodRate) else BalanceAt(s, k - 1)
  {
  }

  /** `a` multiplied by `x`, `n` times over. */
  function Compounded(a: real, x: real, n: nat): real
  {
    if n == 0 then a else Compounded(a, x, n - 1) * x
  }

  /** Compounding `n` times is multiplying by the `n`th power. */
  lemma {:induction false} CompoundedIsPow(a: real, x: real, n: nat)
    ensures Compounded(a, x, n) == a * Pow(x, n)
  {
    if n > 0 {
      CompoundedIsPow(a, x, n - 1);
      assert (a * Pow(x, n - 1)) * x == a * (x * Pow(x, n - 1));
    }
  }

  /** How many of the first `k` sub-periods end an interest interval. */
  function InterestCount(s: Schedule, k: nat): nat
  {
    k / s.interestInterval
  }

  /** Each sub-period that ends an interest interval adds one to the count. */
  lemma InterestCountStep(s: Schedule, k: nat)
    requires k >= 1
    ensures InterestCount(s, k) == InterestCount(s, k - 1) + (if IsInterestPeriod(s, k) then 1 else 0)
  {
    DivStep(k - 1, s.interestInterval);
  }

  /**
   * Without deposits the principal compounds once per completed interest
   * interval: after `k` sub-periods it has been multiplied by `1 + periodRate`
   * exactly `k / interestInterval` times.
   */
  lemma {:induction false} CompoundingOnly(s: Schedule, k: nat)
    requires s.contribution <= 0.0
    ensures BalanceAt(s, k) == Compounded(s.initial, 1.0 + s.periodRate, InterestCount(s, k))
  {
    if k > 0 {
      CompoundingOnly(s, k - 1);
      NoDepositStep(s, k);
      InterestCountStep(s, k);
    }
  }

  /** `c * x + c * x^2 + ... + c * x^k`: a deposit of `c` compounded once, twice, ..., `k` times. */
  function AnnuityDueSum(c: real, x: real, k: nat): real
  {
    if k == 0 then 0.0 else AnnuityDueSum(c, x, k - 1) + c * Pow(x, k)
  }

  /** Compounding the whole series once more and adding a fresh deposit compounded once extends it by one term. */
  lemma {:induction false} AnnuityDueShift(c: real, x: real, n: nat)
    ensures x * AnnuityDueSum(c, x, n) + c * x == AnnuityDueSum(c, x, n + 1)
  {
    if n == 0 {
      assert AnnuityDueSum(c, x, 1) == c * Pow(x, 1) == c * (x * Pow(x, 0));
    } else {
      AnnuityDueShift(c, x, n - 1);
      assert x * AnnuityDueSum(c, x, n) == x * AnnuityDueSum(c, x, n - 1) + x * (c * Pow(x, n));
      assert x * (c * Pow(x, n)) == c * (x * Pow(x, n));
    }
  }

  /** A deposit of `c` followed by one compounding at `x`. */
  function DepositThenCompound(b: real, c: real, x: real): real
  {
    (b + c) * x
  }

  /** One sub-period of a deposit paid before interest, both every sub-period. */
  lemma AtStartStep(s: Schedule, k: nat)
    requires k >= 1 && s.atStart && s.contribution > 0.0 && s.growth == 0.0
    requires s.contributionInterval == 1 && s.interestInterval == 1
    ensures BalanceAt(s, k) == DepositThenCompound(BalanceAt(s, k - 1), s.contribution, 1.0 + s.periodRate)
  {
    FlatDeposit(s, k);
  }

  /**
   * One more sub-period of an annuity due on values: depositing `c` on the
   * balance and compounding once moves both closed-form parts one period on.
   */
  lemma AnnuityValueStep(b: real, b': real, a: real, c: real, x: real, k: nat)
    requires k >= 1
    requires b == Compounded(a, x, k - 1) + AnnuityDueSum(c, x, k - 1) && b' == DepositThenCompound(b, c, x)
    ensures b' == Compounded(a, x, k) + AnnuityDueSum(c, x, k)
  {
    AnnuityDueShift(c, x, k - 1);
  }

  /**
   * A deposit at the start of every sub-period, interest at the end of every
   * sub-period and no growth: after `k` sub-periods the balance is the
   * principal compounded `k` times plus each deposit compounded once for every
   * sub-period it has been in, `c * (x + x^2 + ... + x^k)` with
   * `x = 1 + periodRate`.
   */
  lemma {:induction false} AnnuityDue(s: Schedule, k: nat)
    requires s.atStart && s.contribution > 0.0 && s.growth == 0.0
    requires s.contributionInterval == 1 && s.interestInterval == 1
    ensures BalanceAt(s, k) ==
      Compounded(s.initial, 1.0 + s.periodRate, k) + AnnuityDueSum(s.contribution, 1.0 + s.periodRate, k)
  {
    if k > 0 {
      AnnuityDue(s, k - 1);
      AtStartStep(s, k);
      AnnuityValueStep(BalanceAt(s, k - 1), BalanceAt(s, k), s.initial, s.contribution, 1.0 + s.periodRate, k);
    }
  }

  /** One compounding at `x` followed by a deposit of `c`. */
  function CompoundThenDeposit(b: real, c: real, x: real): real
  {
    b * x + c
  }

  /** One sub-period of a deposit paid after interest, both every sub-period. */
  lemma AtEndStep(s: Schedule, k: nat)
    requires k >= 1 && !s.atStart && s.contribution > 0.0 && s.growth == 0.0
    requires s.contributionInterval == 1 && s.interestInterval == 1
    ensures BalanceAt(s, k) == CompoundThenDeposit(BalanceAt(s, k - 1), s.contribution, 1.0 + s.periodRate)
  {
    FlatDeposit(s, k);
  }

  /** `c + c * x + ... + c * x^(k - 1)`: a deposit of `c` compounded zero, one, ..., `k - 1` times. */
  function AnnuityImmediateSum(c: real, x: real, k: nat): real
  {
    if k == 0 then 0.0 else AnnuityImmediateSum(c, x, k - 1) + c * Pow(x, k - 1)
  }

  /** Compounding the whole series once more and adding a fresh deposit extends it by one term. */
  lemma {:induction false} AnnuityImmediateShift(c: real, x: real, n: nat)
    ensures x * AnnuityImmediateSum(c, x, n) + c == AnnuityImmediateSum(c, x, n + 1)
  {
    if n > 0 {
      AnnuityImmediateShift(c, x, n - 1);
      assert x * AnnuityImmediateSum(c, x, n) ==
        x * AnnuityImmediateSum(c, x, n - 1) + x * (c * Pow(x, n - 1));
      assert x * (c * Pow(x, n - 1)) == c * (x * Pow(x, n - 1));
    }
  }

  /**
   * One more sub-period of an annuity immediate on values: compounding the
   * balance once and then depositing `c` moves both closed-form parts one
   * period on.
   */
  lemma AnnuityImmediateValueStep(b: real, b': real, a: real, c: real, x: real, k: nat)
    requires k >= 1
    requires b == Compounded(a, x, k - 1) + AnnuityImmediateSum(c, x, k - 1)
    requires b' == CompoundThenDeposit(b, c, x)
    ensures b' == Compounded(a, x, k) + AnnuityImmediateSum(c, x, k)
  {
    AnnuityImmediateShift(c, x, k - 1);
  }

  /**
   * A deposit at the end of every sub-period, after interest, and no growth:
   * after `k` sub-periods the balance is the principal compounded `k` times
   * plus `c * (1 + x + ... + x^(k - 1))` with `x = 1 + periodRate`, the last
   * deposit not having earned anything yet.
   */
  lemma {:induction false} AnnuityImmediate(s: Schedule, k: nat)
    requires !s.atStart && s.contribution > 0.0 && s.growth == 0.0
    requires s.contributionInterval == 1 && s.interestInterval == 1
    ensures BalanceAt(s, k) ==
      Compounded(s.initial, 1.0 + s.periodRate, k) + AnnuityImmediateSum(s.contribution, 1.0 + s.periodRate, k)
  {
    if k > 0 {
      AnnuityImmediate(s, k - 1);
      AtEndStep(s, k);
      AnnuityImmediateValueStep(BalanceAt(s, k - 1), BalanceAt(s, k), s.initial, s.contribution,
                                1.0 + s.periodRate, k);
    }
  }

  /** Each deposit paid at the start earns exactly one more compounding than one paid at the end. */
  lemma {:induction false} DueIsImmediateCompounded(c: real, x: real, k: nat)
    ensures AnnuityDueSum(c, x, k) == x * AnnuityImmediateSum(c, x, k)
  {
    if k > 0 {
      DueIsImmediateCompounded(c, x, k - 1);
      assert c * Pow(x, k) == x * (c * Pow(x, k - 1));
    }
  }

  lemma {:induction false} AnnuityImmediateNonNegative(c: real, x: real, k: nat)
    requires c >= 0.0 && x >= 1.0
    ensures AnnuityImmediateSum(c, x, k) >= 0.0
  {
    if k > 0 {
      AnnuityImmediateNonNegative(c, x, k - 1);
      PowAtLeastOne(x, k - 1);
      assert c * Pow(x, k - 1) >= 0.0;
    }
  }

  /** Crediting a non-negative deposit before interest at a rate of at least zero never gives less. */
  lemma StepOrderDominates(be: real, bs: real, d: real, x: real)
    requires be <= bs && d >= 0.0 && x >= 1.0
    ensures CompoundThenDeposit(be, d, x) <= DepositThenCompound(bs, d, x)
  {
    assert be * x <= bs * x;
    assert d * 1.0 <= d * x;
  }

  /** One sub-period: a deposit credited before interest never ends below one credited after. */
  lemma StartStepDominates(s: Schedule, k: nat, be: real, bs: real)
    requires k >= 1 && s.atStart && s.periodRate >= 0.0 && Deposit(s, k) >= 0.0 && be <= bs
    ensures SettleBalance(s.(atStart := false), k, be) <= SettleBalance(s, k, bs)
  {
    var e, d, x := s.(atStart := false), Deposit(s, k), 1.0 + s.periodRate;
    assert Deposit(e, k) == d;
    if IsInterestPeriod(s, k) {
      SettleOrder(e, k, be);
      SettleOrder(s, k, bs);
      StepOrderDominates(be, bs, d, x);
    }
  }

  /**
   * At a non-negative rate and growth, paying at the start never ends with less
   * than paying at the end, on any schedule and after any number of sub-periods.
   */
  lemma {:induction false} StartNeverEarnsLess(s: Schedule, k: nat)
    requires s.atStart && s.periodRate >= 0.0 && s.growth >= 0.0
    ensures BalanceAt(s.(atStart := false), k) <= BalanceAt(s, k)
  {
    if k > 0 {
      StartNeverEarnsLess(s, k - 1);
      DepositSign(s, k);
      StartStepDominates(s, k, BalanceAt(s.(atStart := false), k - 1), BalanceAt(s, k - 1));
    }
  }

  /** With a deposit every sub-period and no growth, paying at the start gains exactly `periodRate` times the end-of-period sum. */
  lemma StartAdvantage(s: Schedule, k: nat)
    requires s.atStart && s.contribution > 0.0 && s.growth == 0.0
    requires s.contributionInterval == 1 && s.interestInterval == 1
    ensures BalanceAt(s, k) - BalanceAt(s.(atStart := false), k) ==
      s.periodRate * AnnuityImmediateSum(s.contribution, 1.0 + s.periodRate, k)
  {
    var x := 1.0 + s.periodRate;
    AnnuityDue(s, k);
    AnnuityImmediate(s.(atStart := false), k);
    DueIsImmediateCompounded(s.contribution, x, k);
    var sum := AnnuityImmediateSum(s.contribution, x, k);
    assert x * sum - sum == s.periodRate * sum;
  }

  /** A year of monthly deposits of 100 on 1000 at 5% compounded monthly, paid at the start. */
  const MonthlyInput := ProjectionInput(1000.0, 100.0, 12, 0.0, true, 5.0, 1.0, 12)

  /** Twelve sub-periods per year, twelve sub-periods in all, a deposit in each. */
  lemma MonthlySchedule()
    ensures var s := Normalize(MonthlyInput);
      s.stepPerYear == 12 && s.periods == 12 && s.contributionInterval == 1 && s.interestInterval == 1
  {
    assert GcdOf(12, 12) == 12;
  }

  /** Over that year 1000 plus twelve deposits of 100 are paid in: 2200. */
  lemma MonthlyScenario()
    ensures ContributionsAt(Normalize(MonthlyInput), Normalize(MonthlyInput).periods) == 2200.0
  {
    var s := Normalize(MonthlyInput);
    MonthlySchedule();
    FlatContributionsTotal(s, 12);
    assert CeilDiv(12, 1) == 12;
  }

  /**
   * The balance at the end of that year: 1000 compounded twelve times at
   * 5%/12 per month, plus each deposit of 100 compounded from its own month on.
   */
  lemma MonthlyBalance()
    ensures var x := 1.0 + 5.0 / 100.0 / 12.0;
      BalanceAt(Normalize(MonthlyInput), Normalize(MonthlyInput).periods) ==
        Compounded(1000.0, x, 12) + AnnuityDueSum(100.0, x, 12)
  {
    var s := Normalize(MonthlyInput);
    MonthlySchedule();
    AnnuityDue(s, 12);
  }
}

=== FILE: validation.dfy ===
/**
 * The form check run before a projection is drawn (`validate` in app.js).
 *
 * A form field arrives either as the empty string, as text or a number that
 * converts to a finite number, or as something that does not (`NaN`,
 * `Infinity`). Only the initial amount tells the empty string apart: for the
 * term and the rate an empty field converts to zero, which fails their
 * positivity test anyway.
 */
module Validation {

  datatype Field = Empty | Finite(value: real) | NotFinite

  /** The three messages, in the order the check reports them. */
  datatype FormError = InitialError | YearsError | RateError

  function Rank(e: FormError): nat
  {
    match e
    case InitialError => 0
    case YearsError => 1
    case RateError => 2
  }

  /** A finite number of at least zero, and not left empty. */
  predicate InitialValid(initial: Field): (valid: bool)
    ensures valid ==> initial.Finite?
    ensures initial == Finite(0.0) ==> valid
    ensures initial.Finite? && initial.value > 0.0 ==> valid
    ensures initial.Finite? && initial.value < 0.0 ==> !valid
  {
    initial.Finite? && initial.value >= 0.0
  }

  /** A finite number above zero. */
  predicate PositiveValid(f: Field): (valid: bool)
    ensures valid ==> f.Finite?
    ensures f.Finite? && f.value <= 0.0 ==> !valid
    ensures f.Finite? && f.value > 0.0 ==> valid
  {
    f.Finite? && f.value > 0.0
  }

  /**
   * `validate` (app.js): one message per invalid field, pushed in the order
   * initial amount, term, rate.
   */
  method Validate(initial: Field, years: Field, rate: Field) returns (messages: seq<FormError>)
    ensures InitialError in messages <==> !InitialValid(initial)
    ensures YearsError in messages <==> !PositiveValid(years)
    ensures RateError in messages <==> !PositiveValid(rate)
    ensures messages == [] <==> InitialValid(initial) && PositiveValid(years) && PositiveValid(rate)
    ensures forall i, j :: 0 <= i < j < |messages| ==> Rank(messages[i]) < Rank(messages[j])
    ensures |messages| <= 3
  {
    messages := [];
    var initialValid := initial.Finite? && initial.value >= 0.0;
    var yearsValid := years.Finite? && years.value > 0.0;
    var rateValid := rate.Finite? && rate.value > 0.0;

    if !initialValid {
      messages := messages + [InitialError];
    }
    if !yearsValid {
      messages := messages + [YearsError];
    }
    if !rateValid {
      messages := messages + [RateError];
    }
  }
}
